=== FILE: README.md ===
# proxylib handshake model

A Dafny model of the connection handshake of `proxylib`, a proxy server
that serves SOCKS5 and HTTP on one listening port. For each accepted
connection `Server.handlerConn` works like this:

- It reads at least two bytes and sniffs the protocol from the first one: `0x05` means SOCKS5, anything else means HTTP.
- For SOCKS5 it negotiates the "no authentication" method and reads the CONNECT request (RFC 1928, sections 3 to 6). It decodes the destination and asks the SOCKS5 handler to connect. Only after that succeeds does it write the fixed success reply `05 00 00 01 00 00 00 00 08 43`.
- For HTTP it parses the request from a `reqReader`, which replays the sniffed bytes and then passes the live connection through. It rejects an HTTP/2 preface with `400 Bad Request`. Otherwise it appends ":80" to the host when the host contains no `:` at all, connects, and then either answers a CONNECT or forwards the request.

Everything is a pure function over byte sequences:

- The bytes a client sends are a `Stream.Segments` value: the chunks the network delivers, in order. A single `Read` returns at most one chunk, and a chunk longer than the buffer is split. This keeps the chunk boundaries visible. They matter because the extra-data errors depend on how much the first read returned.
- `io.ReadAtLeast` and `io.ReadFull` are modelled exactly, including the difference between `io.EOF` (nothing read) and `io.ErrUnexpectedEOF` (something read).
- The result of a handshake is a `Proxy.Outcome`. It records the bytes written back to the client, the address given to `Handler.Connect` (if any), and either the established session or the error.

Parts of the model that are parameters rather than code:

- `Handler.Connect` is a function `string -> bool`: it says whether the connection to an address succeeds.
- `http.ReadRequest` is a function from the bytes the `reqReader` would deliver to the parsed method, host and major protocol version, or to a parse failure.
- `net.IP.String` for a 16-byte IPv6 address is a function from the 16 bytes to text.
- Whether the write of the method-selection reply succeeds is a boolean. It is the only write whose error the code checks (proxy.go:93).

Modules, one file each:

| file | module | what it holds |
|---|---|---|
| base.dfy | `Base` | bytes, `Option`, `Result`, the error values of proxy.go:31-39 plus the I/O and oracle failures |
| stream.dfy | `Stream` | segmented client input, `Read`, `io.ReadAtLeast`, `io.ReadFull` |
| reqreader.dfy | `ReqReader` | the `reqReader` replay-then-passthrough reader |
| text.dfy | `Text` | `strconv.Itoa`, dotted-decimal IPv4 text, `net.JoinHostPort` and `SplitHostPort`, its last-colon inverse (not Go's `net.SplitHostPort`) |
| socks5.dfy | `Socks5` | method negotiation, request parsing and decoding, the destination string |
| http.dfy | `HttpProxy` | the parsed HTTP request, the HTTP/2 preface test, port defaulting |
| proxy.dfy | `Proxy` | `handlerConn` up to the relay |
| properties.dfy | `ProxyProperties` | end-to-end properties of `handlerConn` |

`net.JoinHostPort` is modelled directly: a host that contains `:` is put in
brackets. The IPv4 text is dotted decimal without leading zeros. A domain is
its raw bytes, each taken as one character.

The model follows the code as written in the two places where the code is
evidently wrong (see Findings). A domain of 251 to 255 bytes makes the slice
at proxy.go:137 panic, and the handshake ends with the `SlicePanic` outcome.
HTTP port defaulting appends ":80" only to a host with no `:` at all, as
proxy.go:168 does. The corrected definitions, `Socks5.DecodeTarget` for every
domain length and `HttpProxy.WithDefaultPort` for Go's `net/http` convention
(a host has a port when its last `:` comes after its last `]`), are proved
alongside. The decoding agrees with the code on every shorter domain. The two
port rules differ exactly on the hosts that contain a `:` but have no port,
such as `[::1]`.

## Model

| member | source | states |
|---|---|---|
| Stream.ReadAtLeast | proxy.go:72-76 | The read succeeds exactly when the client sends at least `min` bytes. It returns between `min` and the buffer size of them, and loses no byte: the data followed by what is left is the whole input. When too few bytes arrive, the error is EOF if there were none and unexpected EOF otherwise. |
| Stream.ReadFull | proxy.go:86 | Succeeds exactly when `size` bytes are available, and then returns exactly the first `size` bytes of the input, leaving the rest. |
| Stream.ReadAtLeastAppend | proxy.go:73 | A read that the first part of the input can satisfy returns the same bytes whatever the client sends later; the later bytes stay unread behind the remainder. |
| ReqReader.Read | proxy.go:46-54 | While the captured prefix is non-empty, a read returns `min(len(p), len(b))` bytes from the front of it and leaves the live stream untouched. Once the prefix is empty, the read passes through to the stream. EOF comes only when both are exhausted. No byte is lost or duplicated. |
| ReqReader.ReadEach | proxy.go:46-54 | After any sequence of reads, whatever their buffer sizes, the bytes delivered followed by what the reader still holds are exactly the captured prefix followed by the live stream. |
| ReqReader.ReadAll | proxy.go:41-54 | Reading until EOF delivers exactly the captured prefix followed by the whole live stream. |
| Socks5.ReadRest | proxy.go:85-88 | Completing a message of `len` bytes succeeds exactly when enough bytes follow. On success it keeps what was already read as the prefix and loses nothing after it; on failure it reports an I/O error. A message that is already complete is returned without reading. |
| Socks5.Negotiate | proxy.go:81-91 | A greeting is `nmethods + 2` bytes, which is below the 258-byte buffer. A first read longer than that gives `errAuthExtraData`. A shorter one is completed from the connection, and it succeeds exactly when enough bytes follow. Any other failure is an I/O error. |
| Socks5.RequestLength | proxy.go:101-121 | The checks come in order: version (`errVer`), then command (`errCmd`), then address type (`errAddrType`). A header that passes all three always has a length. The request length is 10 for IPv4, 22 for IPv6 and `len + 7` for a domain, so it always lies in 7..262 and fits the 263-byte buffer. |
| Socks5.CompleteRequest | proxy.go:122-130 | Header errors propagate. `errReqExtraData` occurs exactly when the first read held more than the request length. Success occurs exactly when the missing bytes arrive; with a good header, any other failure is the I/O error of `io.ReadFull`. The result is a well-formed request that starts with the bytes already read. |
| Socks5.ReadRequest | proxy.go:97-130 | Reading a request from the connection fails only with a request error. Fewer than 5 bytes give an I/O error, and a bad header gives that header's error. Success yields a well-formed request followed by the unread bytes. |
| Socks5.NegotiateAppend | proxy.go:81-91 | A greeting whose missing bytes all follow is read in full and leaves later bytes (the request, pipelined data) unread. |
| Socks5.ReadRequestAppend | proxy.go:97-130 | A complete request sent before anything else is read as exactly those bytes, whatever follows it. |
| Socks5.TrailingRequestBytesRejected | proxy.go:122-130 | If the first request read returns more bytes than the header announces, the request fails with `errReqExtraData`, whatever follows. |
| Socks5.DecodeTarget | proxy.go:131-139 | A well-formed request decodes to a valid target: a 4-byte IPv4 address, a 16-byte IPv6 address, or a domain of exactly `buf[4]` bytes starting at offset 5, ending just before the port. The port is below 65536. |
| Socks5.DecodeEncode | proxy.go:131-139 | The CONNECT request for any valid target (RFC 1928 section 4, big-endian port) is well-formed and decodes back to that target. |
| Socks5.EncodeDecode | proxy.go:131-139 | Every well-formed request is the encoding of the target it decodes to, up to the reserved byte, which the parser never reads. |
| Socks5.HostText | proxy.go:132-138 | The host text of an IPv4 address parses back to its four bytes as dotted decimal. The host text of a domain converts back to the domain's bytes. |
| Socks5.Destination | proxy.go:140 | The address given to `Connect` splits at its last colon into a host and the decimal port, and that port parses back to the request's port. The host is the host text itself unless that text is a colon-free name in brackets. |
| Socks5.DecodeAsWritten | proxy.go:131-139 | As written, decoding a well-formed request fails (the slice panics) exactly when the target is a domain of 251 or more bytes. Otherwise it yields the target `DecodeTarget` gives. |
| Socks5.IPv4Destination | proxy.go:132-140 | For IPv4 the address is `a.b.c.d:port`, where the dotted-decimal host parses back to the four address bytes. |
| Socks5.DomainHostAsWritten | proxy.go:136-137 | The domain slice as written, with its end computed in uint8 arithmetic, fails exactly when the domain length is 251 or more. Otherwise it agrees with `DecodeTarget`. |
| Socks5.LongDomainPanicsAsWritten | proxy.go:137 | A valid CONNECT request for a 251-byte domain is well-formed and decodes correctly, but the slice as written cannot be taken. |
| Text.Decimal | proxy.go:140 | `strconv.Itoa` of a non-negative number is a non-empty digit string with no leading zero, except for "0" itself. |
| Text.DecimalBijection | proxy.go:140 | Decimal text and numbers correspond one to one: a canonical digit string parses to `n` exactly when it is the text of `n`. |
| Text.ParseDottedOfDotted | proxy.go:133 | The dotted-decimal text of four bytes parses back to those bytes. |
| Text.DottedOfParseDotted | proxy.go:133 | Text that parses as a dotted IPv4 address is the dotted-decimal text of the result, so the IPv4 text form is unique. |
| Text.Dotted | proxy.go:133 | The IPv4 text splits at its dots into exactly the four decimal octets, in order. |
| Text.JoinHostPort | proxy.go:140 | `net.JoinHostPort` can be undone when the port has no colon: splitting at the last colon gives back the port, and the host after removing the brackets it added. A colon-free host that was already bracketed comes back without its brackets. |
| HttpProxy.DefaultPortAsWritten | proxy.go:167-170 | As written, ":80" is appended exactly when the host contains no colon; otherwise the host is used unchanged. |
| HttpProxy.WithDefaultPort | proxy.go:167-170 | The address always has a port. A host that already has one is unchanged, and any other host gets ":80". |
| HttpProxy.DefaultPortAgreesWithoutBrackets | proxy.go:167-170 | For every host without a `]`, the rule as written and the corrected rule give the same address. |
| HttpProxy.DefaultPortDisagreement | proxy.go:167-170 | The rule as written and the corrected rule give different addresses exactly for the hosts that contain a `:` but have no port. |
| HttpProxy.BracketedHostAsWritten | proxy.go:168 | The host `[::1]` has no port, yet the rule as written dials it without one; the corrected rule dials `[::1]:80`. |
| Proxy.Sniff | proxy.go:77 | The protocol is SOCKS5 exactly when the first byte is `0x05`, and HTTP for every other byte. |
| Proxy.HandlerFor | proxy.go:77-80 | The HTTP branch at proxy.go:150-152 makes the same test. No handler is chosen exactly when the sniffed protocol is disabled or its handler is nil. Otherwise the handler of the sniffed protocol is chosen. |
| Proxy.AfterGreeting | proxy.go:92-95 | The method-selection reply is the only write whose error the code checks. If it fails, the handshake ends with `WriteFailed`, nothing recorded as written and nothing dialled; if it succeeds, the request phase follows. `WriteFailed` occurs exactly when the write fails. |
| Proxy.Socks5Conn | proxy.go:81-148 | A failed negotiation ends with its own error, with nothing written or dialled. After a complete greeting and a successful method-selection write, `05 00` is always written first. The client receives nothing, `05 00`, or `05 00` followed by the success reply, and the last happens exactly on success. Once an address is dialled, the outcome is success exactly when `Connect` succeeds for it, and a failed `Connect` leaves only `05 00` written. Every failure other than `ConnectFailed`, the slice panic included, leaves nothing dialled. `errAuthExtraData` occurs exactly when the first read was longer than the greeting, and then nothing is written. `WriteFailed` occurs exactly when the greeting is complete and the method-selection write fails; a failed write leaves nothing written or dialled. Every failure is an I/O error, `errAuthExtraData`, `WriteFailed` or a request-phase error. |
| Proxy.Socks5Request | proxy.go:97-148 | After the method reply, the success reply is written exactly on success. Once an address is dialled, the outcome is success exactly when `Connect` succeeds for it, and a failed `Connect` gives `ConnectFailed` with only `05 00` written. Every other failure, the slice panic included, leaves nothing dialled, and every failure is a request error, `ConnectFailed` or `SlicePanic`. |
| Proxy.Answer | proxy.go:131-146 | After a well-formed request, the outcome is `SlicePanic` exactly when the target is a domain of 251 bytes or more. Any other target has its `host:port` address dialled. The only failures are `SlicePanic` and `ConnectFailed`, and `05 00` is always written first. |
| Proxy.Dial | proxy.go:141-146 | The address is dialled, and the outcome is success exactly when `Connect` succeeds. The success reply follows `05 00` only then; otherwise the failure is `ConnectFailed`. |
| Proxy.HttpConn | proxy.go:153-181 | The request is parsed from every byte the client sent, sniffed bytes first. A parse failure writes nothing. An HTTP/2 preface writes "400 Bad Request", fails with `errNotSupportNow` and dials nothing. Otherwise the host is dialled, with ":80" appended when it contains no `:` at all. A CONNECT is answered with "200 Connection established"; any other method is forwarded with nothing written back. `ConnectFailed` occurs exactly when the dialled address fails to connect, and then nothing is written. Every failure other than `ConnectFailed` leaves nothing dialled. Every failure is a parse failure, `errNotSupportNow` or `ConnectFailed`, and `errNotSupportNow` always comes with the 400 reply. |
| Proxy.HandleConn | proxy.go:64-80 | Fewer than two bytes give EOF or unexpected EOF, with nothing written or dialled. A first byte `0x05` selects SOCKS5: the client is written only SOCKS5 replies (nothing, `05 00`, or `05 00` and the success reply), and a failure is `errNotSupportProtocol` or a SOCKS5 handshake error. Any other first byte selects HTTP: the client is written nothing, the 400 reply or the CONNECT answer, and a failure is `errNotSupportProtocol`, a parse failure, `errNotSupportNow` or `ConnectFailed`. A disabled or nil handler for that protocol gives `errNotSupportProtocol` before any byte is written. A session always has the sniffed protocol and the dialled address. |
| ProxyProperties.Socks5RequestThenTail | proxy.go:97-146 | Segments that carry exactly the request for a valid target, followed by anything, make the request phase end as the code promises for that target: a dial of its address, or the slice panic for a domain of 251 bytes or more. |
| ProxyProperties.Socks5RequestCompletes | proxy.go:97-146 | Given a request for any valid target, however it is cut into chunks and whatever follows it, the request phase dials that target's address and then writes the success reply if the connect succeeds, and only `05 00` otherwise. A domain of 251 or more bytes instead ends in `SlicePanic`, with only `05 00` written and nothing dialled. |
| ProxyProperties.Socks5ConnCompletes | proxy.go:81-146 | The same holds for the whole SOCKS5 exchange after a first read that stays within the greeting. |
| ProxyProperties.Socks5Handshake | proxy.go:72-146 | End to end: a client that sends a well-formed greeting, then a CONNECT request for a valid target, then anything else, has that target's address dialled. It receives `05 00` plus the success reply when the connect succeeds, and just `05 00` with `ConnectFailed` otherwise, however the network cuts the bytes. A domain target of 251 or more bytes instead ends in `SlicePanic` with nothing dialled. |
| ProxyProperties.PipelinedGreetingRejected | proxy.go:83-91 | If the first read already holds bytes beyond the greeting, the connection fails with `errAuthExtraData`, nothing is written and nothing is dialled. |
| ProxyProperties.HttpIgnoresSegmentation | proxy.go:149-156 | For HTTP the outcome depends only on the bytes the client sends, not on how they arrive, because the sniffed bytes are replayed to the parser. |
| ProxyProperties.HttpRequestDialled | proxy.go:163-181 | A parsed non-HTTP/2 request has its host dialled, with ":80" appended when the host contains no `:` at all. The connection succeeds exactly when the handler connects. A CONNECT then gets "200 Connection established" and other methods are forwarded. |
| ProxyProperties.HttpDialsWithPort | proxy.go:167-171 | For a host without `]`, the address dialled is the host with its default port under the corrected rule, and it always has a port. |
| ProxyProperties.Http2PrefaceRejected | proxy.go:163-166 | An HTTP/2 preface (`PRI`, major version 2) gets "HTTP/1.1 400 Bad Request", fails with `errNotSupportNow`, and nothing is dialled. |

## Left out

- `transport` (proxy.go:189-209) is left out: two goroutines copy in both directions and the first to finish ends the relay. A session ends the model.
- `ListenAndServe`, the accept loop and per-connection goroutines are left out; the model handles a single connection.
- `glog` logging and `httputil.DumpRequest` are left out; they have no effect on the handshake.
- `cmd/` is left out: flag parsing and the dialer behind `Handler.Connect`.
- `Handler.Connect` is a parameter that says whether the connection succeeds. The backend stream it returns and the error value are not modelled; a failure is `ConnectFailed`.
- `Handler.Clean` and `conn.Close` (deferred cleanup) are left out; they run after the handshake.
- `http.ReadRequest` is a parameter applied to the bytes the reader delivers; HTTP parsing itself belongs to Go's library.
- The model gives that parser every byte the client sent. The `bufio.Reader` can buffer client bytes that follow the request head, such as the start of the tunnelled stream after a CONNECT. The relay (proxy.go:186) copies from the connection itself, so those buffered bytes are never forwarded. The relay is not modelled, so neither is this loss.
- The rewrite of `Proxy-Connection` / `Connection` headers and `req.Write` to the backend are one flag, `forwardsRequest`.
- `net.IP.String` for IPv6 is a parameter; RFC 5952 text compression belongs to Go's library.
- Read errors other than end of stream (timeouts, resets) are left out: the client input is a finite sequence of chunks.
- Writes other than the method reply (proxy.go:146, 164, 176) ignore their errors in the code. The model records their bytes as written.
- A failed method-reply write is `WriteFailed` with nothing recorded as written; a partial write is not modelled.
- The panic at proxy.go:137 exits the whole process and ends every other connection with it. The model records it only as the `SlicePanic` outcome of the one connection.

## Findings

| source | as written | input that shows it | evidently intended | confidence | as-written member | corrected member |
|---|---|---|---|---|---|---|
| proxy.go:137 | `buf[5 : 5+buf[4]]` adds in `uint8`, so the slice end wraps around for domain lengths 251..255. The end then falls below the start and the slice panics; there is no `recover`, so the whole process exits. | A CONNECT request with address type 3 and a 251-byte domain: 258 bytes, well within the 263-byte buffer. | Slice `buf[5 : 5+int(buf[4])]`: every domain of up to 255 bytes decodes. | high (not executed) | Socks5.DomainHostAsWritten, Socks5.DecodeAsWritten, Socks5.LongDomainPanicsAsWritten | Socks5.DecodeTarget, Socks5.DecodeEncode |
| proxy.go:168 | `strings.Contains(addr, ":")` counts any colon as a port, so a bracketed IPv6 host without a port is dialled unchanged. | `GET http://[::1]/ HTTP/1.1`, whose host is `[::1]`: `Connect("[::1]")` fails, because the address has no port. | Append ":80" whenever the host has no port, that is, when the last `:` does not come after the last `]`. | medium (not executed) | HttpProxy.DefaultPortAsWritten, HttpProxy.BracketedHostAsWritten | HttpProxy.WithDefaultPort, HttpProxy.DefaultPortAgreesWithoutBrackets, HttpProxy.DefaultPortDisagreement |

=== FILE: base.dfy ===
/** Shared vocabulary of the model: Go's `byte`, optional and fallible
    results, and every error value `Server.handlerConn` can end with. */
module Base {

  /** Go's `byte` (uint8). Arithmetic on bytes is done in `int`; where Go
      wraps at 256 the model writes the `% 256` out. */
  type byte = b: int | 0 <= b < 256

  datatype Option<+T> = None | Some(value: T)

  datatype Result<+T, +E> = Success(value: T) | Failure(error: E)

  /** How `io.ReadAtLeast` and `io.ReadFull` fail when the peer closes
      early: `Eof` when nothing at all was read, `UnexpectedEof` otherwise. */
  datatype IoError = Eof | UnexpectedEof

  /** Every way a connection ends before it is handed to the relay. */
  datatype Error =
    | Io(cause: IoError)        // a read came up short
    | WriteFailed               // the SOCKS5 method-selection reply could not be written
    | NotSupportProtocol        // errNotSupportProtocol
    | AuthExtraData             // errAuthExtraData
    | UnsupportedVersion        // errVer
    | UnsupportedCommand        // errCmd
    | UnsupportedAddrType       // errAddrType
    | ReqExtraData              // errReqExtraData
    | NotSupportNow             // errNotSupportNow
    | BadHttpRequest            // the HTTP request could not be parsed
    | ConnectFailed             // Handler.Connect reported an error
    | SlicePanic                // the domain slice at proxy.go:137 panics; the process exits
}

=== FILE: http.dfy ===
/** The HTTP side of `handlerConn` (proxy.go:149-183) after the request is
    parsed: the HTTP/2 preface check and the destination address. */
module HttpProxy {
  import opened Text

  /** The fields of the parsed request the proxy looks at. */
  datatype Request = Request(methodName: string, host: string, protoMajor: nat)

  const BadRequestReply: string := "HTTP/1.1 400 Bad Request\r\n\r\n"
  const ConnectEstablishedReply: string := "HTTP/1.1 200 Connection established\r\n\r\n"

  /** An HTTP/2 client preface, which this proxy refuses. */
  predicate IsHttp2Preface(req: Request)
  {
    req.methodName == "PRI" && req.protoMajor == 2
  }

  /** A host with an explicit port: its last colon comes after its last
      closing bracket, so "[::1]" has none and "[::1]:443" has one. */
  predicate HasPort(host: string)
  {
    LastIndexOf(host, ':') > LastIndexOf(host, ']')
  }

  /** The destination as proxy.go:167-170 computes it: ":80" is appended
      when the host contains no colon at all. */
  function DefaultPortAsWritten(host: string): (addr: string)
    ensures ':' !in host ==> addr == host + ":80" && HasPort(addr)
    ensures ':' in host ==> addr == host
  {
    if ':' !in host then
      LastIndexAfter(host, ':', "80");
      assert host + ":80" == host + [':'] + "80";
      LastIndexBefore(host, ']', ":80");
      host + ":80"
    else host
  }

  /** The destination with port 80 supplied whenever the host has none:
      every destination has a port, and a port the client gave is kept. */
  function WithDefaultPort(host: string): (addr: string)
    ensures HasPort(addr)
    ensures HasPort(host) ==> addr == host
    ensures !HasPort(host) ==> addr == host + ":80"
  {
    if HasPort(host) then host
    else
      LastIndexAfter(host, ':', "80");
      assert host + ":80" == host + [':'] + "80";
      LastIndexBefore(host, ']', ":80");
      host + ":80"
  }

  /** On every host without a closing bracket, which is every host except
      an IPv6 literal, the source already computes the intended address. */
  lemma DefaultPortAgreesWithoutBrackets(host: string)
    requires ']' !in host
    ensures WithDefaultPort(host) == DefaultPortAsWritten(host)
  {
    assert LastIndexOf(host, ']') == -1;
    if ':' in host {
      var i :| 0 <= i < |host| && host[i] == ':';
      assert LastIndexOf(host, ':') >= i;
    }
  }

  /** The two rules differ exactly on the hosts that contain a colon but
      have no port: bracketed IPv6 literals such as "[::1]". */
  lemma DefaultPortDisagreement(host: string)
    ensures WithDefaultPort(host) != DefaultPortAsWritten(host) <==> ':' in host && !HasPort(host)
  {
    if ':' !in host {
      assert LastIndexOf(host, ':') == -1;
    } else if !HasPort(host) {
      assert |WithDefaultPort(host)| == |host| + 3;
    }
  }

  /** As written, a bracketed IPv6 host without a port, the host of an
      absolute-form request such as "GET http://[::1]/", is dialled with no
      port at all. */
  lemma BracketedHostAsWritten()
    ensures DefaultPortAsWritten("[::1]") == "[::1]"
    ensures !HasPort("[::1]")
    ensures WithDefaultPort("[::1]") == "[::1]:80"
  {
    var h := "[::1]";
    assert h == "[::1" + [']'] + "";
    LastIndexAfter("[::1", ']', "");
    assert "[::1" == "[:" + [':'] + "1";
    LastIndexAfter("[:", ':', "1");
    LastIndexBefore("[::1", ':', "]");
    assert h[2] == ':';
  }
}

=== FILE: properties.dfy ===
/** Properties of whole connections: what a client that follows the
    protocol gets, and how protocol violations end. */
module ProxyProperties {
  import opened Base
  import opened Stream
  import opened Text
  import Socks5
  import HttpProxy
  import opened Proxy

  /** What the request phase does with a request for `t`, as the code is
      written: a domain of 251 bytes or more panics before anything is
      dialled (proxy.go:137); any other target has "host:port" dialled, and
      the success reply follows exactly when the handler connects. */
  function Socks5Promise(h: Handler, env: Env, t: Socks5.Target): Outcome
    requires Socks5.ValidTarget(t)
  {
    if Socks5.LongDomain(t) then Outcome(Socks5.MethodSelection, None, Failure(SlicePanic))
    else
      Dial(h, Socks5.Destination(t, env.ipv6Text))
  }

  /** Once a request has been read, the request phase does what the
      promise says for the target that request names. */
  lemma Socks5RequestOnRequest(h: Handler, env: Env, cs: Segments, req: Socks5.Message)
    requires Socks5.ReadRequest(cs) == Success(req)
    ensures Socks5Request(h, env, cs) == Socks5Promise(h, env, Socks5.DecodeTarget(req.bytes))
  {
  }

  /** The request phase on segments `all == cs + tail`, where `cs` carries
      exactly the request for `t`. */
  lemma Socks5RequestThenTail(h: Handler, env: Env, cs: Segments, tail: Segments, all: Segments, t: Socks5.Target)
    requires all == cs + tail
    requires Socks5.ValidTarget(t) && Flatten(cs) == Socks5.EncodeRequest(t)
    ensures Socks5Request(h, env, all) == Socks5Promise(h, env, t)
  {
    Socks5.DecodeEncode(t);
    Socks5.ReadRequestAppend(cs, tail);
    var r0 := Socks5.ReadRequest(cs).value;
    Socks5RequestOnRequest(h, env, all, Socks5.Message(Socks5.EncodeRequest(t), r0.rest + tail));
  }

  /** Segments without bytes in front of `rc` leave its bytes unchanged. */
  lemma EmptyPrefix(pre: Segments, rc: Segments, tail: Segments)
    requires Flatten(pre) == []
    ensures pre + (rc + tail) == (pre + rc) + tail
    ensures Flatten(pre + rc) == Flatten(rc)
  {
    FlattenAppend(pre, rc);
  }

  /** The request phase on segments `pre + rc + tail`, where `pre` holds no
      bytes and `rc` carries the request for `t`. */
  lemma Socks5RequestCompletes(h: Handler, env: Env, pre: Segments, rc: Segments, tail: Segments, t: Socks5.Target)
    requires Flatten(pre) == []
    requires Socks5.ValidTarget(t) && Flatten(rc) == Socks5.EncodeRequest(t)
    ensures Socks5Request(h, env, pre + (rc + tail)) == Socks5Promise(h, env, t)
  {
    EmptyPrefix(pre, rc, tail);
    Socks5RequestThenTail(h, env, pre + rc, tail, pre + (rc + tail), t);
  }

  /** The SOCKS5 handshake after a sniffing read that stayed inside the
      greeting: `gRest` holds the greeting's missing bytes, `rc` the request. */
  lemma Socks5ConnCompletes(h: Handler, env: Env, head: seq<byte>, gRest: Segments, rc: Segments, tail: Segments,
                            t: Socks5.Target)
    requires 2 <= |head| <= Socks5.GreetingBufLen
    requires |head| <= head[1] as int + 2 == |head| + |Flatten(gRest)|
    requires env.replyWriteOk
    requires Socks5.ValidTarget(t) && Flatten(rc) == Socks5.EncodeRequest(t)
    ensures Socks5Conn(h, env, head, gRest + (rc + tail)) == Socks5Promise(h, env, t)
  {
    Socks5.NegotiateAppend(head, gRest, rc + tail);
    var m1 := Socks5.Negotiate(head, gRest).value;
    assert Socks5Conn(h, env, head, gRest + (rc + tail)) == Socks5Request(h, env, m1.rest + (rc + tail));
    Socks5RequestCompletes(h, env, m1.rest, rc, tail, t);
  }

  /** A SOCKS5 client that sends its greeting, waits for the method
      selection, then sends a CONNECT request, however the network cuts
      either message and whatever it sends afterwards, gets "host:port" of
      its target dialled; it is sent the success reply exactly when the
      handler connects. A domain name of 251 bytes or more instead makes
      the parser panic with only the method selection written. */
  lemma Socks5Handshake(s: Server, env: Env, gc: Segments, rc: Segments, tail: Segments,
                        methods: seq<byte>, t: Socks5.Target)
    requires HandlerFor(s, Socks5Protocol).Some?
    requires env.replyWriteOk
    requires |methods| <= 255
    requires Flatten(gc) == [Socks5.Version, |methods|] + methods
    requires Socks5.ValidTarget(t)
    requires Flatten(rc) == Socks5.EncodeRequest(t)
    ensures !Socks5.LongDomain(t) ==> HandleConn(s, env, gc + rc + tail).dialed == Some(Socks5.Destination(t, env.ipv6Text))
    ensures !Socks5.LongDomain(t) && HandlerFor(s, Socks5Protocol).value.connect(Socks5.Destination(t, env.ipv6Text)) ==>
              HandleConn(s, env, gc + rc + tail)
              == Outcome(Socks5.MethodSelection + Socks5.SuccessReply, Some(Socks5.Destination(t, env.ipv6Text)),
                         Success(Session(Socks5Protocol, Socks5.Destination(t, env.ipv6Text), false)))
    ensures !Socks5.LongDomain(t) && !HandlerFor(s, Socks5Protocol).value.connect(Socks5.Destination(t, env.ipv6Text)) ==>
              HandleConn(s, env, gc + rc + tail)
              == Outcome(Socks5.MethodSelection, Some(Socks5.Destination(t, env.ipv6Text)), Failure(ConnectFailed))
    ensures Socks5.LongDomain(t) ==>
              HandleConn(s, env, gc + rc + tail) == Outcome(Socks5.MethodSelection, None, Failure(SlicePanic))
  {
    var greeting := Flatten(gc);
    var h := HandlerFor(s, Socks5Protocol).value;
    assert gc + rc + tail == gc + (rc + tail);
    ReadAtLeastAppend(gc, rc + tail, Socks5.GreetingBufLen, 2);
    var first := ReadAtLeast(gc, Socks5.GreetingBufLen, 2).value;
    assert first.data == greeting[..|first.data|];
    assert first.data[0] == Socks5.Version && first.data[1] == |methods|;
    assert |first.data| + |Flatten(first.rest)| == |greeting|;
    assert HandleConn(s, env, gc + rc + tail) == Socks5Conn(h, env, first.data, first.rest + (rc + tail));
    Socks5ConnCompletes(h, env, first.data, first.rest, rc, tail, t);
  }

  /** A SOCKS5 client whose greeting arrives together with further bytes
      (a client that does not wait for the method selection) is refused
      before anything is written. */
  lemma PipelinedGreetingRejected(s: Server, env: Env, first: seq<byte>, more: Segments)
    requires |first| >= 2 && first[0] == Socks5.Version && |first| > first[1] as int + 2
    requires HandlerFor(s, Socks5Protocol).Some?
    ensures HandleConn(s, env, [first] + more) == Outcome([], None, Failure(AuthExtraData))
  {
    var cs := [first] + more;
    assert cs[0] == first;
    var step := ReadOnce(cs, Socks5.GreetingBufLen);
    assert [] + step.data == step.data;
    assert FillFrom(cs, Socks5.GreetingBufLen, 2, []) == FillFrom(step.rest, Socks5.GreetingBufLen, 2, step.data);
  }

  /** The HTTP handshake depends only on the bytes the reader replays. */
  lemma HttpConnOnBytes(h: Handler, env: Env, head1: seq<byte>, cs1: Segments, head2: seq<byte>, cs2: Segments)
    requires head1 + Flatten(cs1) == head2 + Flatten(cs2)
    ensures HttpConn(h, env, head1, cs1) == HttpConn(h, env, head2, cs2)
  {
  }

  /** For HTTP only the bytes matter, not how the network cuts them: the
      sniffed bytes are replayed to the request parser. */
  lemma HttpIgnoresSegmentation(s: Server, env: Env, c1: Segments, c2: Segments)
    requires Flatten(c1) == Flatten(c2)
    requires |Flatten(c1)| >= 2 && Flatten(c1)[0] != Socks5.Version
    ensures HandleConn(s, env, c1) == HandleConn(s, env, c2)
  {
    var f1 := ReadAtLeast(c1, Socks5.GreetingBufLen, 2).value;
    var f2 := ReadAtLeast(c2, Socks5.GreetingBufLen, 2).value;
    assert f1.data[0] == Flatten(c1)[0] && f2.data[0] == Flatten(c2)[0];
    if HandlerFor(s, HttpProtocol).Some? {
      HttpConnOnBytes(HandlerFor(s, HttpProtocol).value, env, f1.data, f1.rest, f2.data, f2.rest);
    }
  }

  /** An HTTP request is dialled at its host, with ":80" appended when the
      host has no colon at all; a CONNECT is answered with "200 Connection established" once the
      handler connects, any other method is forwarded to the destination. */
  lemma HttpRequestDialled(s: Server, env: Env, client: Segments, req: HttpProxy.Request)
    requires |Flatten(client)| >= 2 && Flatten(client)[0] != Socks5.Version
    requires HandlerFor(s, HttpProtocol).Some?
    requires env.readRequest(Flatten(client)) == Some(req) && !HttpProxy.IsHttp2Preface(req)
    ensures HandleConn(s, env, client).dialed == Some(HttpProxy.DefaultPortAsWritten(req.host))
    ensures HandleConn(s, env, client).result.Success?
            <==> HandlerFor(s, HttpProtocol).value.connect(HttpProxy.DefaultPortAsWritten(req.host))
    ensures HandleConn(s, env, client).result.Success? && req.methodName == "CONNECT" ==>
              HandleConn(s, env, client).written == ToBytes(HttpProxy.ConnectEstablishedReply)
    ensures HandleConn(s, env, client).result.Success? && req.methodName != "CONNECT" ==>
              HandleConn(s, env, client).written == [] && HandleConn(s, env, client).result.value.forwardsRequest
  {
    var f := ReadAtLeast(client, Socks5.GreetingBufLen, 2).value;
    assert f.data[0] == Flatten(client)[0];
  }

  /** For a host without a `]`, which is every host but a bracketed IPv6
      literal, the address dialled always carries a port: 80 unless the
      host names one. */
  lemma HttpDialsWithPort(s: Server, env: Env, client: Segments, req: HttpProxy.Request)
    requires |Flatten(client)| >= 2 && Flatten(client)[0] != Socks5.Version
    requires HandlerFor(s, HttpProtocol).Some?
    requires env.readRequest(Flatten(client)) == Some(req) && !HttpProxy.IsHttp2Preface(req)
    requires ']' !in req.host
    ensures HandleConn(s, env, client).dialed == Some(HttpProxy.WithDefaultPort(req.host))
    ensures HttpProxy.HasPort(HandleConn(s, env, client).dialed.value)
  {
    HttpRequestDialled(s, env, client, req);
    HttpProxy.DefaultPortAgreesWithoutBrackets(req.host);
  }

  /** An HTTP/2 preface gets "400 Bad Request" and the handler is never
      asked to connect. */
  lemma Http2PrefaceRejected(s: Server, env: Env, client: Segments, req: HttpProxy.Request)
    requires |Flatten(client)| >= 2 && Flatten(client)[0] != Socks5.Version
    requires HandlerFor(s, HttpProtocol).Some?
    requires env.readRequest(Flatten(client)) == Some(req) && HttpProxy.IsHttp2Preface(req)
    ensures HandleConn(s, env, client) == Outcome(ToBytes(HttpProxy.BadRequestReply), None, Failure(NotSupportNow))
  {
    var f := ReadAtLeast(client, Socks5.GreetingBufLen, 2).value;
    assert f.data[0] == Flatten(client)[0];
  }
}

=== FILE: proxy.dfy ===
/** `Server.handlerConn` (proxy.go:64-184) up to the point where the
    connection is handed to the relay: protocol sniffing, then the SOCKS5
    or the HTTP handshake. */
module Proxy {
  import opened Base
  import opened Stream
  import opened Text
  import ReqReader
  import Socks5
  import HttpProxy

  datatype Protocol = Socks5Protocol | HttpProtocol

  /** `Handler` (handler.go:7-10), reduced to whether `Connect` succeeds
      for a given address. */
  datatype Handler = Handler(connect: string -> bool)

  /** The protocol-related fields of `Server`; a `None` handler is Go's nil. */
  datatype Server = Server(
    socks5Handler: Option<Handler>,
    httpHandler: Option<Handler>,
    disableSocks5: bool,
    disableHttp: bool)

  /** What the handshake depends on besides the client's bytes: whether the
      SOCKS5 method-selection write succeeds, the text `net.IP.String`
      gives a 16-byte address, and what `http.ReadRequest` makes of the
      bytes it is given. */
  datatype Env = Env(
    replyWriteOk: bool,
    ipv6Text: seq<byte> -> string,
    readRequest: seq<byte> -> Option<HttpProxy.Request>)

  /** A connection ready for the relay. `forwardsRequest` is true when the
      rewritten HTTP request has been written to the destination. */
  datatype Session = Session(protocol: Protocol, dest: string, forwardsRequest: bool)

  /** What the handshake did: the bytes written to the client, the address
      passed to `Connect` if it was called, and how it ended. */
  datatype Outcome = Outcome(written: seq<byte>, dialed: Option<string>, result: Result<Session, Error>)

  /** Buffer size of the `bufio.Reader` the HTTP request is parsed from. */
  const BufioSize: nat := 4096

  /** The protocol a connection speaks, from its first byte: SOCKS5
      exactly when that byte is the SOCKS5 version. */
  function Sniff(head: seq<byte>): (p: Protocol)
    requires |head| >= 1
    ensures p == Socks5Protocol <==> head[0] == Socks5.Version
  {
    if head[0] == Socks5.Version then Socks5Protocol else HttpProtocol
  }

  /** The handler serving a protocol, unless it is disabled or nil. */
  function HandlerFor(s: Server, p: Protocol): (r: Option<Handler>)
    ensures p == Socks5Protocol ==> (r.None? <==> s.disableSocks5 || s.socks5Handler.None?)
    ensures p == HttpProtocol ==> (r.None? <==> s.disableHttp || s.httpHandler.None?)
    ensures r.Some? ==> r == (if p == Socks5Protocol then s.socks5Handler else s.httpHandler)
  {
    match p
    case Socks5Protocol => if s.disableSocks5 then None else s.socks5Handler
    case HttpProtocol => if s.disableHttp then None else s.httpHandler
  }

  /** What the SOCKS5 handshake can have written to the client: nothing,
      the method selection, or the method selection and the success reply. */
  predicate Socks5Written(w: seq<byte>)
  {
    w == [] || w == Socks5.MethodSelection || w == Socks5.MethodSelection + Socks5.SuccessReply
  }

  /** How the SOCKS5 handshake can fail once the protocol is sniffed. */
  predicate Socks5ConnError(e: Error)
  {
    e == AuthExtraData || e == WriteFailed || RequestPhaseError(e)
  }

  /** What holds of every SOCKS5 outcome, whichever phase it ended in. The
      success reply is written exactly on success, and only after `Connect`
      succeeded for the dialled address. Once an address is dialled, the
      outcome is success exactly when `Connect` succeeds; every failure
      other than `ConnectFailed` leaves nothing dialled. */
  predicate Socks5Outcome(h: Handler, o: Outcome)
  {
    && Socks5Written(o.written)
    && (o.result.Success? <==> o.written == Socks5.MethodSelection + Socks5.SuccessReply)
    && (o.result.Success? ==>
          o.dialed == Some(o.result.value.dest) && h.connect(o.result.value.dest)
          && o.result.value.protocol == Socks5Protocol && !o.result.value.forwardsRequest)
    && (o.result == Failure(ConnectFailed) <==> o.dialed.Some? && !h.connect(o.dialed.value))
    && (o.dialed.Some? ==> (o.result.Success? <==> h.connect(o.dialed.value)))
    && (o.result.Failure? && o.result.error != ConnectFailed ==> o.dialed.None?)
    && (o.result.Failure? ==> Socks5ConnError(o.result.error))
    && (o.dialed.Some? ==> |o.written| >= 2 && o.written[..2] == Socks5.MethodSelection)
  }

  /** What the HTTP handshake can have written to the client: nothing, the
      HTTP/2 rejection, or the CONNECT answer. */
  predicate HttpWritten(w: seq<byte>)
  {
    w == [] || w == ToBytes(HttpProxy.BadRequestReply) || w == ToBytes(HttpProxy.ConnectEstablishedReply)
  }

  /** How the HTTP handshake can fail once the protocol is sniffed. */
  predicate HttpConnError(e: Error)
  {
    e == BadHttpRequest || e == NotSupportNow || e == ConnectFailed
  }

  /** The SOCKS5 handshake once the sniffing read returned `head`: method
      negotiation and the method-selection reply (proxy.go:81-95), then
      `Socks5Request`. */
  function Socks5Conn(h: Handler, env: Env, head: seq<byte>, cs: Segments): (o: Outcome)
    requires 2 <= |head| <= Socks5.GreetingBufLen
    ensures Socks5Outcome(h, o)
    ensures o.result == Failure(AuthExtraData) <==> |head| > head[1] as int + 2
    ensures o.result == Failure(AuthExtraData) ==> o.written == []
    ensures o.result == Failure(WriteFailed) <==> !env.replyWriteOk && |head| <= head[1] as int + 2 <= |head| + |Flatten(cs)|
    ensures !env.replyWriteOk ==> o.written == [] && o.dialed.None?
    ensures Socks5.Negotiate(head, cs).Failure? ==> o == Outcome([], None, Failure(Socks5.Negotiate(head, cs).error))
    ensures Socks5.Negotiate(head, cs).Success? && env.replyWriteOk ==>
              |o.written| >= 2 && o.written[..2] == Socks5.MethodSelection
  {
    match Socks5.Negotiate(head, cs)
    case Failure(e) => Outcome([], None, Failure(e))
    case Success(greeting) => AfterGreeting(h, env, greeting.rest)
  }

  /** Everything after a complete greeting: the method-selection reply
      (proxy.go:92-95), then the request phase. */
  function AfterGreeting(h: Handler, env: Env, cs: Segments): (o: Outcome)
    ensures !env.replyWriteOk ==> o == Outcome([], None, Failure(WriteFailed))
    ensures env.replyWriteOk ==> o == Socks5Request(h, env, cs)
    ensures Socks5Outcome(h, o)
    ensures o.result == Failure(WriteFailed) <==> !env.replyWriteOk
    ensures o.result != Failure(AuthExtraData)
  {
    if !env.replyWriteOk then Outcome([], None, Failure(WriteFailed))
    else Socks5Request(h, env, cs)
  }

  /** How the SOCKS5 request phase can fail. */
  predicate RequestPhaseError(e: Error)
  {
    Socks5.RequestError(e) || e == ConnectFailed || e == SlicePanic
  }

  /** The request, `Connect` and the success reply (proxy.go:97-148), after
      the method selection has been written. The success reply is written
      only after `Connect` succeeded; every failure leaves just the method
      selection written. A domain name of 251 bytes or more makes the slice
      at proxy.go:137 panic before anything is dialled. */
  function Socks5Request(h: Handler, env: Env, cs: Segments): (o: Outcome)
    ensures Socks5Outcome(h, o)
    ensures o.result.Failure? ==> RequestPhaseError(o.result.error)
    ensures |o.written| >= 2 && o.written[..2] == Socks5.MethodSelection
  {
    match Socks5.ReadRequest(cs)
    case Failure(e) => Outcome(Socks5.MethodSelection, None, Failure(e))
    case Success(req) => Answer(h, env, req.bytes)
  }

  /** What follows a well-formed request (proxy.go:131-146): the slice at
      proxy.go:137 panics for a domain of 251 bytes or more, before anything
      is dialled; any other target has its address dialled. */
  function Answer(h: Handler, env: Env, msg: seq<byte>): (o: Outcome)
    requires Socks5.WellFormedRequest(msg)
    ensures Socks5Outcome(h, o)
    ensures o.result == Failure(SlicePanic) <==> Socks5.LongDomain(Socks5.DecodeTarget(msg))
    ensures !Socks5.LongDomain(Socks5.DecodeTarget(msg)) ==> o.dialed == Some(Socks5.Destination(Socks5.DecodeTarget(msg), env.ipv6Text))
    ensures o.result.Failure? ==> o.result.error == SlicePanic || o.result.error == ConnectFailed
    ensures |o.written| >= 2 && o.written[..2] == Socks5.MethodSelection
  {
    match Socks5.DecodeAsWritten(msg)
    case None => Outcome(Socks5.MethodSelection, None, Failure(SlicePanic))
    case Some(t) => Dial(h, Socks5.Destination(t, env.ipv6Text))
  }

  /** `Connect(addr)` and the success reply (proxy.go:141-146): the reply
      follows exactly when the connection succeeds; a failed `Connect`
      returns with only the method selection written. */
  function Dial(h: Handler, dest: string): (o: Outcome)
    ensures Socks5Outcome(h, o)
    ensures o.dialed == Some(dest)
    ensures o.result.Success? <==> h.connect(dest)
    ensures o.result.Failure? ==> o.result.error == ConnectFailed
  {
    if h.connect(dest) then
      Outcome(Socks5.MethodSelection + Socks5.SuccessReply, Some(dest), Success(Session(Socks5Protocol, dest, false)))
    else Outcome(Socks5.MethodSelection, Some(dest), Failure(ConnectFailed))
  }

  /** The HTTP handshake once the sniffing read returned `head`. The request
      is parsed from a `reqReader` over `head` and the connection, so the
      parser sees every byte the client sent, the sniffed ones first. */
  function HttpConn(h: Handler, env: Env, head: seq<byte>, cs: Segments): (o: Outcome)
    ensures env.readRequest(head + Flatten(cs)).None? ==> o == Outcome([], None, Failure(BadHttpRequest))
    ensures env.readRequest(head + Flatten(cs)).Some? && HttpProxy.IsHttp2Preface(env.readRequest(head + Flatten(cs)).value) ==>
              o == Outcome(ToBytes(HttpProxy.BadRequestReply), None, Failure(NotSupportNow))
    ensures env.readRequest(head + Flatten(cs)).Some? && !HttpProxy.IsHttp2Preface(env.readRequest(head + Flatten(cs)).value) ==>
              o.dialed == Some(HttpProxy.DefaultPortAsWritten(env.readRequest(head + Flatten(cs)).value.host))
    ensures o.result.Success? <==> o.dialed.Some? && h.connect(o.dialed.value)
    ensures o.result.Success? ==>
              o.result.value.protocol == HttpProtocol && o.dialed == Some(o.result.value.dest)
              && (o.result.value.forwardsRequest <==> env.readRequest(head + Flatten(cs)).value.methodName != "CONNECT")
              && o.written == (if o.result.value.forwardsRequest then [] else ToBytes(HttpProxy.ConnectEstablishedReply))
    ensures o.result.Failure? && o.result.error != NotSupportNow ==> o.written == []
    ensures o.result == Failure(ConnectFailed) <==> o.dialed.Some? && !h.connect(o.dialed.value)
    ensures o.result.Failure? && o.result.error != ConnectFailed ==> o.dialed.None?
    ensures o.result == Failure(NotSupportNow) ==> o.written == ToBytes(HttpProxy.BadRequestReply)
    ensures HttpWritten(o.written)
    ensures o.result.Failure? ==> HttpConnError(o.result.error)
  {
    var bytes := ReqReader.ReadAll(ReqReader.Reader(head, cs), BufioSize);
    match env.readRequest(bytes)
    case None => Outcome([], None, Failure(BadHttpRequest))
    case Some(req) =>
      if HttpProxy.IsHttp2Preface(req) then
        Outcome(ToBytes(HttpProxy.BadRequestReply), None, Failure(NotSupportNow))
      else
        var dest := HttpProxy.DefaultPortAsWritten(req.host);
        if !h.connect(dest) then Outcome([], Some(dest), Failure(ConnectFailed))
        else if req.methodName == "CONNECT" then
          Outcome(ToBytes(HttpProxy.ConnectEstablishedReply), Some(dest), Success(Session(HttpProtocol, dest, false)))
        else Outcome([], Some(dest), Success(Session(HttpProtocol, dest, true)))
  }

  /** `handlerConn` up to the relay, for a client that sends `client`. */
  function HandleConn(s: Server, env: Env, client: Segments): (o: Outcome)
    ensures |Flatten(client)| < 2 ==>
              o == Outcome([], None, Failure(Io(if Flatten(client) == [] then Eof else UnexpectedEof)))
    ensures |Flatten(client)| >= 2 && Flatten(client)[0] == Socks5.Version && (s.disableSocks5 || s.socks5Handler.None?) ==>
              o == Outcome([], None, Failure(NotSupportProtocol))
    ensures |Flatten(client)| >= 2 && Flatten(client)[0] != Socks5.Version && (s.disableHttp || s.httpHandler.None?) ==>
              o == Outcome([], None, Failure(NotSupportProtocol))
    ensures o.result.Success? ==>
              |Flatten(client)| >= 2 && (o.result.value.protocol == Socks5Protocol <==> Flatten(client)[0] == Socks5.Version)
              && o.dialed == Some(o.result.value.dest)
    ensures |Flatten(client)| >= 2 && Flatten(client)[0] == Socks5.Version ==>
              Socks5Written(o.written) && (o.result.Failure? ==> o.result.error == NotSupportProtocol || Socks5ConnError(o.result.error))
    ensures |Flatten(client)| >= 2 && Flatten(client)[0] != Socks5.Version ==>
              HttpWritten(o.written) && (o.result.Failure? ==> o.result.error == NotSupportProtocol || HttpConnError(o.result.error))
  {
    match ReadAtLeast(client, Socks5.GreetingBufLen, 2)
    case Failure(e) => Outcome([], None, Failure(Io(e)))
    case Success(first) =>
      assert first.data[0] == Flatten(client)[0];
      var p := Sniff(first.data);
      match HandlerFor(s, p)
      case None => Outcome([], None, Failure(NotSupportProtocol))
      case Some(h) =>
        if p == Socks5Protocol then Socks5Conn(h, env, first.data, first.rest)
        else HttpConn(h, env, first.data, first.rest)
  }
}

=== FILE: reqreader.dfy ===
/** `reqReader` (proxy.go:41-54): hands out the bytes the protocol sniffer
    already took off the connection, then reads the connection itself. */
module ReqReader {
  import opened Base
  import opened Stream

  /** The captured prefix `b` and the live connection `r`. */
  datatype Reader = Reader(b: seq<byte>, r: Segments)

  /** Every byte the reader will still hand out. */
  function Contents(rd: Reader): seq<byte>
  {
    rd.b + Flatten(rd.r)
  }

  /** One `Read(p)` with `len(p) == room`, and the reader it leaves. */
  datatype Step = Step(data: seq<byte>, next: Reader, eof: bool)

  function Read(rd: Reader, room: nat): (s: Step)
    ensures s.data + Contents(s.next) == Contents(rd)
    ensures |s.data| <= room
    ensures s.eof <==> rd.b == [] && rd.r == []
    ensures rd.b != [] ==> s.next.r == rd.r && |s.data| == (if room < |rd.b| then room else |rd.b|)
    ensures rd.b == [] ==> s.next.b == []
  {
    if |rd.b| == 0 then
      var step := ReadOnce(rd.r, room);
      Step(step.data, Reader([], step.rest), step.eof)
    else
      var n := if room < |rd.b| then room else |rd.b|;
      assert rd.b == rd.b[..n] + rd.b[n..];
      Step(rd.b[..n], Reader(rd.b[n..], rd.r), false)
  }

  /** What a caller collects by calling `Read` with the given buffer sizes
      in turn, and the reader left afterwards. */
  function ReadEach(rd: Reader, rooms: seq<nat>): (r: (seq<byte>, Reader))
    ensures r.0 + Contents(r.1) == Contents(rd)
    decreases |rooms|
  {
    if |rooms| == 0 then ([], rd)
    else
      var s := Read(rd, rooms[0]);
      var more := ReadEach(s.next, rooms[1..]);
      (s.data + more.0, more.1)
  }

  /** Reading with a `room`-byte buffer until end of stream. */
  function ReadAll(rd: Reader, room: nat): (all: seq<byte>)
    requires room > 0
    ensures all == Contents(rd)
    decreases |Contents(rd)|, |rd.r|
  {
    var s := Read(rd, room);
    if s.eof then []
    else s.data + ReadAll(s.next, room)
  }
}

=== FILE: socks5.dfy ===
/** The SOCKS5 side of `handlerConn` (proxy.go:78-140), following sections
    3 to 6 of RFC 1928: method negotiation, the CONNECT request, and the
    destination text handed to the handler. */
module Socks5 {
  import opened Base
  import opened Stream
  import opened Text

  const Version: byte := 5
  const CmdConnect: byte := 1
  const AtypIPv4: byte := 1
  const AtypDomain: byte := 3
  const AtypIPv6: byte := 4

  /** Sizes of the two buffers the handshake reads into (proxy.go:72, 97). */
  const GreetingBufLen: nat := 258
  const RequestBufLen: nat := 263

  /** Method selection: version 5, "no authentication required". */
  const MethodSelection: seq<byte> := [5, 0]

  /** The reply sent once the handler has connected: succeeded, bound
      address 0.0.0.0, bound port 0x0843. */
  const SuccessReply: seq<byte> := [5, 0, 0, 1, 0, 0, 0, 0, 0x08, 0x43]

  /** A complete handshake message and what the client sent after it. */
  datatype Message = Message(bytes: seq<byte>, rest: Segments)

  /** Brings a message of `len` bytes, of which the first read returned
      `head`, to its full length: nothing is read when `head` is already
      complete, otherwise exactly the missing bytes are (`io.ReadFull`). */
  function ReadRest(head: seq<byte>, cs: Segments, len: nat): (r: Result<Message, Error>)
    requires |head| <= len
    ensures r.Success? <==> len <= |head| + |Flatten(cs)|
    ensures r.Failure? ==> r.error.Io?
    ensures r.Success? ==> |r.value.bytes| == len && r.value.bytes[..|head|] == head
    ensures r.Success? ==> r.value.bytes + Flatten(r.value.rest) == head + Flatten(cs)
    ensures |head| == len ==> r == Success(Message(head, cs))
  {
    if |head| == len then Success(Message(head, cs))
    else
      match ReadFull(cs, len - |head|)
      case Failure(e) => Failure(Io(e))
      case Success(f) =>
        AppendRead(head, Flatten(cs), len - |head|);
        Success(Message(head + f.data, f.rest))
  }

  lemma AppendRead(head: seq<byte>, all: seq<byte>, k: nat)
    requires k <= |all|
    ensures |head + all[..k]| == |head| + k
    ensures (head + all[..k])[..|head|] == head
    ensures (head + all[..k]) + all[k..] == head + all
  {
    assert all[..k] + all[k..] == all;
  }

  /** Method negotiation (proxy.go:81-91). `head` is what the sniffing read
      returned; the message is `head[1] + 2` bytes long. Missing bytes are
      read; bytes beyond the message in `head` are a protocol violation. */
  function Negotiate(head: seq<byte>, cs: Segments): (r: Result<Message, Error>)
    requires 2 <= |head| <= GreetingBufLen
    ensures r.Success? <==> |head| <= head[1] as int + 2 <= |head| + |Flatten(cs)|
    ensures r == Failure(AuthExtraData) <==> |head| > head[1] as int + 2
    ensures r.Failure? && r.error != AuthExtraData ==> r.error.Io?
    ensures r.Success? ==> |r.value.bytes| == head[1] as int + 2 < GreetingBufLen
    ensures r.Success? ==> r.value.bytes[..|head|] == head
    ensures r.Success? ==> r.value.bytes + Flatten(r.value.rest) == head + Flatten(cs)
    ensures |head| == head[1] as int + 2 ==> r == Success(Message(head, cs))
  {
    var msgLen := head[1] as int + 2;
    if |head| <= msgLen then ReadRest(head, cs, msgLen) else Failure(AuthExtraData)
  }

  /** Length of the whole request from its first five bytes, checking
      version, then command, then address type: IPv4 4 + 4 + 2, IPv6
      4 + 16 + 2, a domain 4 + 1 + its length + 2. */
  function RequestLength(head: seq<byte>): (r: Result<nat, Error>)
    requires |head| >= 5
    ensures head[0] != Version ==> r == Failure(UnsupportedVersion)
    ensures head[0] == Version && head[1] != CmdConnect ==> r == Failure(UnsupportedCommand)
    ensures head[0] == Version && head[1] == CmdConnect && head[3] !in {AtypIPv4, AtypDomain, AtypIPv6} ==>
              r == Failure(UnsupportedAddrType)
    ensures r.Success? <==> head[0] == Version && head[1] == CmdConnect && head[3] in {AtypIPv4, AtypDomain, AtypIPv6}
    ensures r.Success? ==> 7 <= r.value < RequestBufLen
    ensures r.Success? && head[3] == AtypIPv4 ==> r.value == 10
    ensures r.Success? && head[3] == AtypIPv6 ==> r.value == 22
    ensures r.Success? && head[3] == AtypDomain ==> r.value == head[4] as int + 7
  {
    if head[0] != Version then Failure(UnsupportedVersion)
    else if head[1] != CmdConnect then Failure(UnsupportedCommand)
    else if head[3] == AtypIPv4 then Success(4 + 6)
    else if head[3] == AtypIPv6 then Success(16 + 6)
    else if head[3] == AtypDomain then Success(head[4] as int + 7)
    else Failure(UnsupportedAddrType)
  }

  /** The errors reading a request can end with. */
  predicate RequestError(e: Error)
  {
    e.Io? || e == UnsupportedVersion || e == UnsupportedCommand || e == UnsupportedAddrType || e == ReqExtraData
  }

  /** A complete CONNECT request whose length is the one its header gives. */
  predicate WellFormedRequest(msg: seq<byte>)
  {
    |msg| >= 5 && RequestLength(msg[..5]) == Success(|msg|)
  }

  /** Completes the request once the first read returned `head`: the
      header checks, then the missing bytes. Bytes beyond the request in
      `head` are a protocol violation (proxy.go:101-130). */
  function CompleteRequest(head: seq<byte>, cs: Segments): (r: Result<Message, Error>)
    requires 5 <= |head| <= RequestBufLen
    ensures RequestLength(head[..5]).Failure? ==> r == Failure(RequestLength(head[..5]).error)
    ensures r == Failure(ReqExtraData) <==>
              RequestLength(head[..5]).Success? && RequestLength(head[..5]).value < |head|
    ensures r.Success? <==>
              RequestLength(head[..5]).Success? && |head| <= RequestLength(head[..5]).value <= |head| + |Flatten(cs)|
    ensures r.Failure? ==> RequestError(r.error)
    ensures r.Failure? && RequestLength(head[..5]).Success? && r.error != ReqExtraData ==> r.error.Io?
    ensures r.Success? ==> |r.value.bytes| >= |head| && r.value.bytes[..|head|] == head
    ensures r.Success? ==> WellFormedRequest(r.value.bytes)
    ensures r.Success? ==> r.value.bytes + Flatten(r.value.rest) == head + Flatten(cs)
  {
    match RequestLength(head[..5])
    case Failure(e) => Failure(e)
    case Success(reqLen) =>
      if |head| <= reqLen then
        var m := ReadRest(head, cs, reqLen);
        assert m.Success? ==> m.value.bytes[..5] == head[..5];
        m
      else Failure(ReqExtraData)
  }

  /** Reading the request: at least five bytes into the 263-byte buffer,
      then `CompleteRequest`. Every header error is decided by the first
      five bytes the client sends. */
  function ReadRequest(cs: Segments): (r: Result<Message, Error>)
    ensures r.Failure? ==> RequestError(r.error)
    ensures r.Success? ==> WellFormedRequest(r.value.bytes)
    ensures r.Success? ==> r.value.bytes + Flatten(r.value.rest) == Flatten(cs)
    ensures |Flatten(cs)| < 5 ==> r.Failure? && r.error.Io?
    ensures |Flatten(cs)| >= 5 && RequestLength(Flatten(cs)[..5]).Failure? ==>
              r == Failure(RequestLength(Flatten(cs)[..5]).error)
    ensures r == Failure(ReqExtraData) ==>
              RequestLength(Flatten(cs)[..5]).Success? && RequestLength(Flatten(cs)[..5]).value < |Flatten(cs)|
  {
    match ReadAtLeast(cs, RequestBufLen, 5)
    case Failure(e) => Failure(Io(e))
    case Success(f) =>
      assert f.data[..5] == Flatten(cs)[..5];
      CompleteRequest(f.data, f.rest)
  }

  /** Completing a message never reads past it. */
  lemma ReadRestAppend(head: seq<byte>, cs: Segments, tail: Segments, len: nat)
    requires |head| <= len <= |head| + |Flatten(cs)|
    ensures ReadRest(head, cs, len).Success?
    ensures ReadRest(head, cs + tail, len)
            == Success(Message(ReadRest(head, cs, len).value.bytes, ReadRest(head, cs, len).value.rest + tail))
  {
    if |head| < len {
      var n := len - |head|;
      ReadAtLeastAppend(cs, tail, n, n);
      var f := ReadFull(cs, n).value;
      assert ReadFull(cs + tail, n) == Success(Filled(f.data, f.rest + tail));
    }
  }

  /** A client that sends its greeting and then waits has the whole
      greeting consumed and nothing after it. */
  lemma NegotiateAppend(head: seq<byte>, cs: Segments, tail: Segments)
    requires 2 <= |head| <= GreetingBufLen
    requires |head| <= head[1] as int + 2 == |head| + |Flatten(cs)|
    ensures Negotiate(head, cs).Success?
    ensures Negotiate(head, cs).value.bytes == head + Flatten(cs)
    ensures Flatten(Negotiate(head, cs).value.rest) == []
    ensures Negotiate(head, cs + tail)
            == Success(Message(head + Flatten(cs), Negotiate(head, cs).value.rest + tail))
  {
    ReadRestAppend(head, cs, tail, head[1] as int + 2);
  }

  /** Segments that carry exactly one well-formed request are read as that
      request, whatever the client sends after them. */
  lemma ReadRequestAppend(cs: Segments, tail: Segments)
    requires WellFormedRequest(Flatten(cs))
    ensures ReadRequest(cs).Success?
    ensures ReadRequest(cs).value.bytes == Flatten(cs)
    ensures Flatten(ReadRequest(cs).value.rest) == []
    ensures ReadRequest(cs + tail) == Success(Message(Flatten(cs), ReadRequest(cs).value.rest + tail))
  {
    var all := Flatten(cs);
    ReadAtLeastAppend(cs, tail, RequestBufLen, 5);
    var f := ReadAtLeast(cs, RequestBufLen, 5).value;
    assert f.data[..5] == all[..5];
    ReadRestAppend(f.data, f.rest, tail, |all|);
    var m := ReadRequest(cs).value;
    assert m.bytes + Flatten(m.rest) == all;
    assert m.bytes == all[..|m.bytes|];
  }

  /** The address forms of a request. */
  datatype Address = IPv4(ip: seq<byte>) | DomainName(name: seq<byte>) | IPv6(ip: seq<byte>)

  /** Where the client asks to be connected. */
  datatype Target = Target(addr: Address, port: nat)

  predicate ValidTarget(t: Target)
  {
    && t.port < 0x1_0000
    && match t.addr
       case IPv4(ip) => |ip| == 4
       case IPv6(ip) => |ip| == 16
       case DomainName(name) => |name| <= 255
  }

  /** The address and big-endian port of a well-formed request. */
  function DecodeTarget(msg: seq<byte>): (t: Target)
    requires WellFormedRequest(msg)
    ensures ValidTarget(t)
    ensures msg[3] == AtypDomain ==> t.addr.DomainName? && t.addr.name == msg[5..|msg| - 2] && |t.addr.name| == msg[4]
  {
    var port := msg[|msg| - 2] as int * 256 + msg[|msg| - 1] as int;
    if msg[3] == AtypIPv4 then Target(IPv4(msg[4..8]), port)
    else if msg[3] == AtypIPv6 then Target(IPv6(msg[4..20]), port)
    else Target(DomainName(msg[5..5 + msg[4] as int]), port)
  }

  function EncodeAddress(a: Address): seq<byte>
    requires a.DomainName? ==> |a.name| <= 255
  {
    match a
    case IPv4(ip) => [AtypIPv4] + ip
    case IPv6(ip) => [AtypIPv6] + ip
    case DomainName(name) => [AtypDomain, |name|] + name
  }

  /** The CONNECT request a client sends for `t` (RFC 1928 section 4),
      with the reserved byte zero. */
  function EncodeRequest(t: Target): seq<byte>
    requires ValidTarget(t)
  {
    [Version, CmdConnect, 0] + EncodeAddress(t.addr) + [t.port / 256, t.port % 256]
  }

  /** Where the parts of a target sit in its encoding. */
  lemma EncodeRequestLayout(t: Target)
    requires ValidTarget(t)
    ensures |EncodeRequest(t)| == 5 + |EncodeAddress(t.addr)|
    ensures EncodeRequest(t)[..5] == [Version, CmdConnect, 0] + EncodeAddress(t.addr)[..2]
    ensures EncodeRequest(t)[3 + |EncodeAddress(t.addr)|] == t.port / 256
    ensures EncodeRequest(t)[4 + |EncodeAddress(t.addr)|] == t.port % 256
    ensures EncodeRequest(t)[3..3 + |EncodeAddress(t.addr)|] == EncodeAddress(t.addr)
  {
  }

  /** Every valid target survives encoding and decoding. */
  lemma DecodeEncode(t: Target)
    requires ValidTarget(t)
    ensures WellFormedRequest(EncodeRequest(t))
    ensures DecodeTarget(EncodeRequest(t)) == t
  {
    var msg := EncodeRequest(t);
    EncodeRequestLayout(t);
    var a := EncodeAddress(t.addr);
    assert msg[3..3 + |a|] == a;
    match t.addr
    case IPv4(ip) =>
      assert msg[4..8] == a[1..] == ip;
    case IPv6(ip) =>
      assert msg[4..20] == a[1..] == ip;
    case DomainName(name) =>
      assert msg[5..5 + |name|] == a[2..] == name;
  }

  /** Every well-formed request is the encoding of what it decodes to, up to
      the reserved byte, which the parser never looks at. */
  lemma EncodeDecode(msg: seq<byte>)
    requires WellFormedRequest(msg)
    ensures EncodeRequest(DecodeTarget(msg)) == msg[2 := 0]
  {
    var t := DecodeTarget(msg);
    var enc := EncodeRequest(t);
    assert msg[..5][3] == msg[3];
    assert |enc| == |msg|;
    assert enc[..|enc| - 2] == msg[2 := 0][..|msg| - 2];
    assert enc[|enc| - 2..] == msg[|msg| - 2..];
    assert enc == enc[..|enc| - 2] + enc[|enc| - 2..];
    assert msg[2 := 0] == msg[2 := 0][..|msg| - 2] + msg[|msg| - 2..];
  }

  /** The host text of an address (proxy.go:132-138): dotted decimal for
      IPv4, `ipv6Text` of the 16 bytes for IPv6, the raw bytes for a domain.
      The IPv4 text reads back as the address and a domain's text as its
      bytes. */
  function HostText(a: Address, ipv6Text: seq<byte> -> string): (h: string)
    requires a.IPv4? ==> |a.ip| == 4
    ensures a.IPv4? ==> ParseDotted(h) == Some(a.ip)
    ensures a.DomainName? ==> ToBytes(h) == a.name
  {
    match a
    case IPv4(ip) => ParseDottedOfDotted(ip); Dotted(ip)
    case IPv6(ip) => ipv6Text(ip)
    case DomainName(name) => ToBytesFromBytes(name); FromBytes(name)
  }

  /** The address string given to `Handler.Connect`,
      `net.JoinHostPort(host, strconv.Itoa(port))`: its part after the last
      colon is the decimal port, and its part before is the host text
      unless that text is a colon-free bracketed string. */
  function Destination(t: Target, ipv6Text: seq<byte> -> string): (d: string)
    requires ValidTarget(t)
    ensures SplitHostPort(d).Some? && SplitHostPort(d).value.1 == Decimal(t.port)
    ensures ParseDecimal(SplitHostPort(d).value.1) == t.port
    ensures ':' in HostText(t.addr, ipv6Text) || !Bracketed(HostText(t.addr, ipv6Text)) ==>
              SplitHostPort(d).value.0 == HostText(t.addr, ipv6Text)
  {
    DecimalHasNo(t.port, ':');
    ParseDecimalOfDecimal(t.port);
    JoinHostPort(HostText(t.addr, ipv6Text), Decimal(t.port))
  }

  /** For IPv4 the destination is "a.b.c.d:port", and its host part reads
      back as the four address bytes. */
  lemma IPv4Destination(ip: seq<byte>, port: nat, ipv6Text: seq<byte> -> string)
    requires |ip| == 4 && port < 0x1_0000
    ensures Destination(Target(IPv4(ip), port), ipv6Text) == Dotted(ip) + ":" + Decimal(port)
    ensures ParseDotted(SplitHostPort(Destination(Target(IPv4(ip), port), ipv6Text)).value.0) == Some(ip)
  {
    var host := Dotted(ip);
    DottedChars(ip);
    assert ':' !in host;
    assert !Bracketed(host) by {
      assert host[0] != '[';
    }
    assert SplitHostPort(Destination(Target(IPv4(ip), port), ipv6Text)).value.0 == host;
  }

  /** Dotted text is made of digits and dots only. */
  lemma DottedChars(ip: seq<byte>)
    requires |ip| == 4
    ensures |Dotted(ip)| > 0
    ensures forall i :: 0 <= i < |Dotted(ip)| ==> IsDigit(Dotted(ip)[i]) || Dotted(ip)[i] == '.'
  {
    JoinDigitsAndDots([Decimal(ip[0]), Decimal(ip[1]), Decimal(ip[2]), Decimal(ip[3])]);
  }

  lemma {:induction false} JoinDigitsAndDots(parts: seq<string>)
    requires |parts| >= 1
    requires forall k :: 0 <= k < |parts| ==> |parts[k]| >= 1 && AllDigits(parts[k])
    ensures |Join(parts, '.')| > 0
    ensures forall i :: 0 <= i < |Join(parts, '.')| ==> IsDigit(Join(parts, '.')[i]) || Join(parts, '.')[i] == '.'
    decreases |parts|
  {
    if |parts| > 1 {
      var rest := Join(parts[1..], '.');
      JoinDigitsAndDots(parts[1..]);
      var s := parts[0] + ['.'] + rest;
      forall i | 0 <= i < |s|
        ensures IsDigit(s[i]) || s[i] == '.'
      {
        if i < |parts[0]| {
          assert s[i] == parts[0][i];
        } else if i > |parts[0]| {
          assert s[i] == rest[i - |parts[0]| - 1];
        }
      }
    }
  }

  /** The host slice proxy.go:137 takes for a domain request,
      `buf[5 : 5+buf[4]]`. Both operands are `byte`, so the end index wraps
      at 256; `None` is the run-time panic of a slice whose end lies before
      its start. */
  function DomainHostAsWritten(msg: seq<byte>): (r: Option<seq<byte>>)
    requires WellFormedRequest(msg) && msg[3] == AtypDomain
    ensures r.None? <==> msg[4] >= 251
    ensures r.Some? ==> r.value == DecodeTarget(msg).addr.name
  {
    var high := (5 + msg[4] as int) % 256;
    if high < 5 then None else Some(msg[5..high])
  }

  /** Targets whose request the parser as written cannot decode: domain
      names of 251 to 255 bytes (proxy.go:137). */
  predicate LongDomain(t: Target)
  {
    t.addr.DomainName? && |t.addr.name| >= 251
  }

  /** The target as proxy.go:131-139 decodes it, `None` where the domain
      slice panics. */
  function DecodeAsWritten(msg: seq<byte>): (r: Option<Target>)
    requires WellFormedRequest(msg)
    ensures r.None? <==> LongDomain(DecodeTarget(msg))
    ensures r.Some? ==> r.value == DecodeTarget(msg)
  {
    if msg[3] == AtypDomain && DomainHostAsWritten(msg).None? then None else Some(DecodeTarget(msg))
  }

  /** A legal request for a 251-byte domain name. */
  function LongDomainRequest(): (t: Target)
    ensures ValidTarget(t)
  {
    Target(DomainName(seq(251, _ => 'a' as int)), 80)
  }

  /** As written, a request for a 251-byte domain name panics the parser,
      though RFC 1928 allows names of up to 255 bytes and the corrected
      decoding returns the name. */
  lemma LongDomainPanicsAsWritten()
    ensures WellFormedRequest(EncodeRequest(LongDomainRequest()))
    ensures EncodeRequest(LongDomainRequest())[3] == AtypDomain
    ensures DomainHostAsWritten(EncodeRequest(LongDomainRequest())) == None
    ensures DecodeTarget(EncodeRequest(LongDomainRequest())) == LongDomainRequest()
  {
    DecodeEncode(LongDomainRequest());
  }

  /** A first request read that returns more than the request, as happens
      when the request and later bytes arrive in one segment, is rejected. */
  lemma TrailingRequestBytesRejected(first: seq<byte>, more: Segments)
    requires |first| >= 5 && RequestLength(first[..5]).Success?
    requires RequestLength(first[..5]).value < |first|
    ensures ReadRequest([first] + more) == Failure(ReqExtraData)
  {
    var cs := [first] + more;
    assert cs[0] == first;
    var step := ReadOnce(cs, RequestBufLen);
    assert [] + step.data == step.data;
    assert FillFrom(cs, RequestBufLen, 5, []) == FillFrom(step.rest, RequestBufLen, 5, step.data);
    assert step.data[..5] == first[..5];
  }
}

=== FILE: stream.dfy ===
/** The inbound side of a client connection as `net.Conn.Read` sees it, and
    the `io.ReadAtLeast` / `io.ReadFull` helpers the handshake reads with. */
module Stream {
  import opened Base

  /** What the client sends, cut where the network delivers it: one `Read`
      never returns bytes of two segments. Running out of segments is the
      client closing its side of the connection. */
  type Segments = seq<seq<byte>>

  /** Every byte the client sends, in order. */
  function Flatten(cs: Segments): seq<byte>
  {
    if |cs| == 0 then [] else cs[0] + Flatten(cs[1..])
  }

  lemma {:induction false} FlattenAppend(a: Segments, b: Segments)
    ensures Flatten(a + b) == Flatten(a) + Flatten(b)
  {
    if |a| == 0 {
      assert a + b == b;
    } else {
      assert (a + b)[1..] == a[1..] + b;
      FlattenAppend(a[1..], b);
    }
  }

  /** One `conn.Read(p)` with `len(p) == room`. */
  datatype ReadStep = ReadStep(data: seq<byte>, rest: Segments, eof: bool)

  /** A read copies as much of the front segment as fits and leaves the
      remainder of a segment it had to cut at the front of the stream. */
  function ReadOnce(cs: Segments, room: nat): (r: ReadStep)
    ensures r.data + Flatten(r.rest) == Flatten(cs)
    ensures |r.data| <= room
    ensures r.eof <==> |cs| == 0
    ensures r.eof ==> r.data == []
    ensures |cs| > 0 ==> |r.rest| < |cs| || (|r.rest| == |cs| && |r.data| == room)
  {
    if |cs| == 0 then ReadStep([], [], true)
    else if |cs[0]| <= room then ReadStep(cs[0], cs[1..], false)
    else
      var rest := [cs[0][room..]] + cs[1..];
      assert rest[1..] == cs[1..];
      assert cs[0] == cs[0][..room] + cs[0][room..];
      ReadStep(cs[0][..room], rest, false)
  }

  /** A completed read: the bytes now in the buffer, and what the client
      has sent but the handshake has not read yet. */
  datatype Filled = Filled(data: seq<byte>, rest: Segments)

  /** The loop of `io.ReadAtLeast` once `got` is already in the buffer:
      keep reading into the free part of a `size`-byte buffer until at
      least `min` bytes are there. */
  function FillFrom(cs: Segments, size: nat, min: nat, got: seq<byte>): (r: Result<Filled, IoError>)
    requires min <= size && |got| <= size
    ensures r.Success? <==> min <= |got| + |Flatten(cs)|
    ensures r.Success? ==> min <= |r.value.data| <= size
    ensures r.Success? ==> r.value.data + Flatten(r.value.rest) == got + Flatten(cs)
    ensures r.Failure? ==> (r.error == Eof <==> |got| + |Flatten(cs)| == 0)
    decreases |cs|, size - |got|
  {
    if |got| >= min then Success(Filled(got, cs))
    else
      var step := ReadOnce(cs, size - |got|);
      if step.eof then Failure(if |got| == 0 then Eof else UnexpectedEof)
      else FillFrom(step.rest, size, min, got + step.data)
  }

  /** `io.ReadAtLeast(conn, buf, min)` with `len(buf) == size`. */
  function ReadAtLeast(cs: Segments, size: nat, min: nat): (r: Result<Filled, IoError>)
    requires min <= size
    ensures r.Success? <==> min <= |Flatten(cs)|
    ensures r.Success? ==> min <= |r.value.data| <= size
    ensures r.Success? ==> r.value.data + Flatten(r.value.rest) == Flatten(cs)
    ensures r.Failure? ==> (r.error == Eof <==> Flatten(cs) == [])
  {
    FillFrom(cs, size, min, [])
  }

  /** `io.ReadFull(conn, buf)` with `len(buf) == size`: exactly the next
      `size` bytes of the stream, or a short-read error. */
  function ReadFull(cs: Segments, size: nat): (r: Result<Filled, IoError>)
    ensures r.Success? <==> size <= |Flatten(cs)|
    ensures r.Success? ==> r.value.data == Flatten(cs)[..size]
    ensures r.Success? ==> Flatten(r.value.rest) == Flatten(cs)[size..]
  {
    ReadAtLeast(cs, size, size)
  }

  /** One read from a non-empty stream takes its bytes from the front
      segment only, so segments appended behind it stay behind it. */
  lemma ReadOnceAppend(cs: Segments, tail: Segments, room: nat)
    requires |cs| > 0
    ensures ReadOnce(cs + tail, room) == ReadStep(ReadOnce(cs, room).data, ReadOnce(cs, room).rest + tail, false)
  {
    assert (cs + tail)[0] == cs[0];
    assert (cs + tail)[1..] == cs[1..] + tail;
    if |cs[0]| > room {
      assert [cs[0][room..]] + (cs + tail)[1..] == ([cs[0][room..]] + cs[1..]) + tail;
    }
  }

  /** A read that the segments `cs` can satisfy on their own never takes a
      byte of whatever the client sends after them. */
  lemma {:induction false} FillFromAppend(cs: Segments, tail: Segments, size: nat, min: nat, got: seq<byte>)
    requires min <= size && |got| <= size
    requires min <= |got| + |Flatten(cs)|
    ensures FillFrom(cs, size, min, got).Success?
    ensures FillFrom(cs + tail, size, min, got)
            == Success(Filled(FillFrom(cs, size, min, got).value.data, FillFrom(cs, size, min, got).value.rest + tail))
    decreases |cs|, size - |got|
  {
    if |got| < min {
      assert |cs| > 0;
      var step := ReadOnce(cs, size - |got|);
      ReadOnceAppend(cs, tail, size - |got|);
      FillFromAppend(step.rest, tail, size, min, got + step.data);
    }
  }

  lemma ReadAtLeastAppend(cs: Segments, tail: Segments, size: nat, min: nat)
    requires min <= size && min <= |Flatten(cs)|
    ensures ReadAtLeast(cs, size, min).Success?
    ensures ReadAtLeast(cs + tail, size, min)
            == Success(Filled(ReadAtLeast(cs, size, min).value.data, ReadAtLeast(cs, size, min).value.rest + tail))
  {
    FillFromAppend(cs, tail, size, min, []);
  }
}

=== FILE: text.dfy ===
/** The text forms the handshake produces: decimal numbers as
    `strconv.Itoa` writes them, dotted IPv4 addresses as `net.IP.String`
    writes a 4-byte address, and `host:port` joined as `net.JoinHostPort`
    does. Each comes with the parser that takes it apart again. */
module Text {
  import opened Base

  predicate IsDigit(c: char)
  {
    '0' <= c <= '9'
  }

  predicate AllDigits(s: string)
  {
    forall i :: 0 <= i < |s| ==> IsDigit(s[i])
  }

  /** Decimal text without sign or leading zero. */
  predicate Canonical(s: string)
  {
    |s| >= 1 && AllDigits(s) && (s[0] == '0' ==> |s| == 1)
  }

  function DigitChar(d: nat): (c: char)
    requires d < 10
    ensures IsDigit(c) && c as int - '0' as int == d
  {
    ('0' as int + d) as char
  }

  function DigitValue(c: char): (d: nat)
    requires IsDigit(c)
    ensures d < 10 && DigitChar(d) == c
  {
    c as int - '0' as int
  }

  /** `strconv.Itoa` of a non-negative number. */
  function Decimal(n: nat): (s: string)
    ensures Canonical(s)
    ensures s[0] == '0' <==> n == 0
    decreases n
  {
    if n < 10 then [DigitChar(n)] else Decimal(n / 10) + [DigitChar(n % 10)]
  }

  function ParseDecimal(s: string): nat
    requires AllDigits(s)
    decreases |s|
  {
    if |s| == 0 then 0
    else ParseDecimal(s[..|s| - 1]) * 10 + DigitValue(s[|s| - 1])
  }

  lemma {:induction false} ParseDecimalOfDecimal(n: nat)
    ensures ParseDecimal(Decimal(n)) == n
    decreases n
  {
    if n >= 10 {
      var s := Decimal(n / 10) + [DigitChar(n % 10)];
      assert s[..|s| - 1] == Decimal(n / 10);
      ParseDecimalOfDecimal(n / 10);
    }
  }

  lemma {:induction false} ParseDecimalPositive(s: string)
    requires |s| >= 1 && AllDigits(s) && s[0] != '0'
    ensures ParseDecimal(s) >= 1
    decreases |s|
  {
    if |s| > 1 {
      ParseDecimalPositive(s[..|s| - 1]);
    }
  }

  lemma {:induction false} DecimalOfParseDecimal(s: string)
    requires Canonical(s)
    ensures Decimal(ParseDecimal(s)) == s
    decreases |s|
  {
    if |s| == 1 {
      assert ParseDecimal(s) == DigitValue(s[0]);
    } else {
      var init := s[..|s| - 1];
      ParseDecimalPositive(init);
      DecimalOfParseDecimal(init);
      var m := ParseDecimal(s);
      assert m / 10 == ParseDecimal(init) && m % 10 == DigitValue(s[|s| - 1]);
      assert s == init + [s[|s| - 1]];
    }
  }

  /** `Decimal` and `ParseDecimal` are inverse bijections between numbers
      and canonical decimal text. */
  lemma DecimalBijection(n: nat, s: string)
    ensures Canonical(s) ==> (Decimal(n) == s <==> ParseDecimal(s) == n)
  {
    ParseDecimalOfDecimal(n);
    if Canonical(s) {
      DecimalOfParseDecimal(s);
    }
  }

  /** `strings.Split(s, string(sep))`. */
  function Split(s: string, sep: char): (parts: seq<string>)
    ensures |parts| >= 1
    decreases |s|
  {
    if |s| == 0 then [""]
    else
      var tail := Split(s[1..], sep);
      if s[0] == sep then [""] + tail else [[s[0]] + tail[0]] + tail[1..]
  }

  /** `strings.Join(parts, string(sep))`. */
  function Join(parts: seq<string>, sep: char): string
    requires |parts| >= 1
    decreases |parts|
  {
    if |parts| == 1 then parts[0] else parts[0] + [sep] + Join(parts[1..], sep)
  }

  lemma {:induction false} JoinSplit(s: string, sep: char)
    ensures Join(Split(s, sep), sep) == s
    decreases |s|
  {
    if |s| > 0 {
      var tail := Split(s[1..], sep);
      JoinSplit(s[1..], sep);
      if s[0] == sep {
        assert ([""] + tail)[1..] == tail;
      } else {
        var parts := [[s[0]] + tail[0]] + tail[1..];
        if |tail| > 1 {
          assert parts[1..] == tail[1..];
          assert Join(tail, sep) == tail[0] + [sep] + Join(tail[1..], sep);
        }
      }
    }
  }

  lemma {:induction false} SplitNoSeparator(a: string, sep: char)
    requires sep !in a
    ensures Split(a, sep) == [a]
    decreases |a|
  {
    if |a| > 0 {
      SplitNoSeparator(a[1..], sep);
      assert [a[0]] + a[1..] == a;
    }
  }

  lemma {:induction false} SplitAtFirst(a: string, sep: char, b: string)
    requires sep !in a
    ensures Split(a + [sep] + b, sep) == [a] + Split(b, sep)
    decreases |a|
  {
    var s := a + [sep] + b;
    if |a| == 0 {
      assert s[1..] == b;
    } else {
      assert s[1..] == a[1..] + [sep] + b;
      SplitAtFirst(a[1..], sep, b);
      assert [a[0]] + a[1..] == a;
    }
  }

  /** Splitting a join of separator-free parts gives the parts back. */
  lemma {:induction false} SplitOfJoin(parts: seq<string>, sep: char)
    requires |parts| >= 1
    requires forall i :: 0 <= i < |parts| ==> sep !in parts[i]
    ensures Split(Join(parts, sep), sep) == parts
    decreases |parts|
  {
    if |parts| == 1 {
      SplitNoSeparator(parts[0], sep);
    } else {
      SplitOfJoin(parts[1..], sep);
      SplitAtFirst(parts[0], sep, Join(parts[1..], sep));
      assert [parts[0]] + parts[1..] == parts;
    }
  }

  /** `net.IP.String` of a 4-byte address: its bytes in decimal, joined by
      dots. Splitting at the dots gives back exactly the four numbers. */
  function Dotted(ip: seq<byte>): (s: string)
    requires |ip| == 4
    ensures Split(s, '.') == [Decimal(ip[0]), Decimal(ip[1]), Decimal(ip[2]), Decimal(ip[3])]
  {
    var parts := [Decimal(ip[0]), Decimal(ip[1]), Decimal(ip[2]), Decimal(ip[3])];
    DecimalHasNo(ip[0], '.'); DecimalHasNo(ip[1], '.');
    DecimalHasNo(ip[2], '.'); DecimalHasNo(ip[3], '.');
    SplitOfJoin(parts, '.');
    Join(parts, '.')
  }

  predicate IsOctet(s: string)
  {
    Canonical(s) && ParseDecimal(s) < 256
  }

  /** Reads dotted-decimal IPv4 text: four canonical octets joined by dots. */
  function ParseDotted(s: string): (ip: Option<seq<byte>>)
    ensures ip.Some? ==> |ip.value| == 4
  {
    var p := Split(s, '.');
    if |p| == 4 && IsOctet(p[0]) && IsOctet(p[1]) && IsOctet(p[2]) && IsOctet(p[3]) then
      Some([ParseDecimal(p[0]), ParseDecimal(p[1]), ParseDecimal(p[2]), ParseDecimal(p[3])])
    else None
  }

  lemma DecimalHasNo(n: nat, c: char)
    requires !IsDigit(c)
    ensures c !in Decimal(n)
  {
    var s := Decimal(n);
    assert forall i :: 0 <= i < |s| ==> s[i] != c;
  }

  lemma ParseDottedOfDotted(ip: seq<byte>)
    requires |ip| == 4
    ensures ParseDotted(Dotted(ip)) == Some(ip)
  {
    var parts := [Decimal(ip[0]), Decimal(ip[1]), Decimal(ip[2]), Decimal(ip[3])];
    ParseDecimalOfDecimal(ip[0]); ParseDecimalOfDecimal(ip[1]);
    ParseDecimalOfDecimal(ip[2]); ParseDecimalOfDecimal(ip[3]);
    assert Split(Dotted(ip), '.') == parts;
    assert [ip[0], ip[1], ip[2], ip[3]] == ip;
  }

  lemma DottedOfParseDotted(s: string)
    requires ParseDotted(s).Some?
    ensures Dotted(ParseDotted(s).value) == s
  {
    var p := Split(s, '.');
    JoinSplit(s, '.');
    DecimalOfParseDecimal(p[0]); DecimalOfParseDecimal(p[1]);
    DecimalOfParseDecimal(p[2]); DecimalOfParseDecimal(p[3]);
    var ip := ParseDotted(s).value;
    assert [Decimal(ip[0]), Decimal(ip[1]), Decimal(ip[2]), Decimal(ip[3])] == p;
  }

  /** Position of the last `c` in `s`, or -1: `strings.LastIndexByte`. */
  function LastIndexOf(s: string, c: char): (k: int)
    ensures -1 <= k < |s|
    ensures k >= 0 ==> s[k] == c
    ensures forall j :: k < j < |s| ==> s[j] != c
    decreases |s|
  {
    if |s| == 0 then -1
    else if s[|s| - 1] == c then |s| - 1
    else LastIndexOf(s[..|s| - 1], c)
  }

  lemma LastIndexAfter(a: string, c: char, b: string)
    requires c !in b
    ensures LastIndexOf(a + [c] + b, c) == |a|
  {
    LastIndexBefore(a + [c], c, b);
    assert (a + [c])[|a|] == c;
  }

  lemma LastIndexBefore(a: string, c: char, b: string)
    requires c !in b
    ensures LastIndexOf(a + b, c) == LastIndexOf(a, c) < |a|
  {
    var s := a + b;
    forall j | |a| <= j < |s|
      ensures s[j] != c
    {
      assert s[j] == b[j - |a|] && b[j - |a|] in b;
    }
    assert forall j :: 0 <= j < |a| ==> s[j] == a[j];
  }

  /** A host wrapped in square brackets, as IPv6 literals are in `host:port`. */
  predicate Bracketed(h: string)
  {
    |h| >= 2 && h[0] == '[' && h[|h| - 1] == ']'
  }

  /** Splits `host:port` at its last colon and drops the brackets around
      the host, if any. Unlike Go's `net.SplitHostPort` it does not reject
      hosts with several colons; it is the inverse of `JoinHostPort` below. */
  function SplitHostPort(s: string): (r: Option<(string, string)>)
    ensures r.None? <==> ':' !in s
  {
    var k := LastIndexOf(s, ':');
    if k < 0 then None
    else
      var h := s[..k];
      Some((if Bracketed(h) then h[1..|h| - 1] else h, s[k + 1..]))
  }

  /** `net.JoinHostPort`: a host containing a colon is bracketed. For every
      port without a colon, splitting at the last colon gives back the host
      and the port; the only host that does not come back unchanged is a
      colon-free bracketed one, which loses its brackets. */
  function JoinHostPort(host: string, port: string): (s: string)
    ensures ':' !in port ==>
              SplitHostPort(s) == Some((if ':' in host || !Bracketed(host) then host else host[1..|host| - 1], port))
  {
    var a := if ':' in host then "[" + host + "]" else host;
    var s := a + [':'] + port;
    if ':' in port then s
    else
      LastIndexAfter(a, ':', port);
      assert s[..|a|] == a && s[|a| + 1..] == port;
      assert ':' in host ==> a[1..|a| - 1] == host;
      s
  }

  /** A Go `string(b)` of raw bytes: one character per byte. */
  function FromBytes(bs: seq<byte>): (s: string)
  {
    seq(|bs|, i requires 0 <= i < |bs| => bs[i] as char)
  }

  /** `[]byte(s)` for text whose characters are all single bytes. */
  function ToBytes(s: string): (bs: seq<byte>)
  {
    seq(|s|, i requires 0 <= i < |s| => s[i] as int % 256)
  }

  lemma ToBytesFromBytes(bs: seq<byte>)
    ensures ToBytes(FromBytes(bs)) == bs
  {
  }
}
